=== FILE: README.md ===
# Shotgun-Redis cache facade, modelled in Dafny

The `Shotgun` class of `shotgun/api/shotgunAPI.py` puts a Redis store in front
of the Shotgun server's `find` query. An instance has a connection mode:

- `direct` asks the server every time;
- `cached` answers from Redis when the query's key is there. Otherwise it asks
  the server, writes the answer back under a time-to-live and returns it.
- `local` answers from Redis only, and returns an empty result when the key
  is missing.

A Redis connection error in cached mode demotes the instance to `direct`
for good, and the call is retried once in that mode.

The model is functional:

- `Values`: the values a query carries. It also holds the canonical list that
  is serialised and hashed into a key (the positional arguments with the
  options mapping appended).
- `Collaborators`: the Redis store is a map from key to entry (rows plus the
  expiry last set). The server is an uninterpreted `Query -> Reply` function.
  A `Fault` names the store operation, if any, that raises a connection error
  during a call. A trace records every collaborator call.
- `ShotgunApi`: the instance state (`Shotgun`), construction (`Init`) and one
  `find` call as a pure step (`Find` and the three strategies it dispatches to).
  Each step returns the reply, the state afterwards and the trace.
- `Sessions`: `Run` chains several calls on one instance. The lemmas there
  relate calls to each other: demotion is permanent, a hit returns what a miss
  stored, cached and cache-only instances share keys, and late failures behave
  as described below.

Serialisation is the identity. The hash is an uninterpreted, deterministic
function of the canonical list. It is not assumed injective, so properties
that need two queries to have different keys are stated on the canonical
lists instead.

Some behaviours of the code that are easy to miss:

- Every mode string other than `direct` and `local` goes to the cached find,
  not only `cached` (shotgunAPI.py:84-91). The model lets such a mode be
  demoted like `cached`. In the code such an instance has no Redis client,
  so this part is an abstraction: see the collaborator construction line
  under "## Left out".
- `Other` never holds one of the three known names (`WellNamed`). `Init`
  guarantees this, and the lemmas about cached mode assume it, so the model
  dispatches exactly as the code's string comparisons do.
- Cache-only mode does not strip the `ttl` option, so `ttl` is part of its key.
- A miss in cache-only mode returns the empty list, although the code comment
  says `None`.
- The options are modelled as a mapping with no order, so equal option
  mappings always give the same key. The code pickles the dictionary as it
  is, with no sorting. This is an abstraction: see the `pickle` line under
  "## Left out".

The model also makes some consequences of the code explicit:

- A Redis `set` drops any earlier expiry. If the connection fails between
  `set` and `expire`, the entry is therefore left with no expiry at all.
- A failure at `set` or `expire` comes after the server has already answered,
  so the server is asked twice in that call (`Sessions.LateFailure`).

## Model

| member | source | states |
|---|---|---|
| `Values.CanonicalInjective` | shotgun/api/shotgunAPI.py:119-121 | the list that is hashed (`Values.Canonical`) (args copy with the kwargs mapping appended) is equal for two calls exactly when their args and options are equal, so distinct calls can share a key only through a hash collision |
| `ShotgunApi.ModeOf` | shotgun/api/shotgunAPI.py:41-42 | the mode built from a connection string reads back as that same string, and an unrecognised string never looks like one of the three known modes |
| `ShotgunApi.Init` | shotgun/api/shotgunAPI.py:16-44 | the default time-to-live is 600; an empty script name forces `local` whatever connection was asked for; otherwise the mode is the requested connection string; the store is untouched |
| `ShotgunApi.StripTtl` | shotgun/api/shotgunAPI.py:112-114 | the stripped call has no `ttl` option, the same positional args, and every other option with its value |
| `ShotgunApi.ExpiryFor` | shotgun/api/shotgunAPI.py:112-116 | the expiry is the call's `ttl` option when present and the instance default otherwise; when `ttl` is present, putting the expiry back into the stripped options gives the caller's options again |
| `ShotgunApi.StripTtlIdempotent` | shotgun/api/shotgunAPI.py:112-114 | stripping twice is stripping once, and a call without `ttl` is unchanged |
| `ShotgunApi.Find` | shotgun/api/shotgunAPI.py:77-91 | direct mode returns the server reply verbatim after exactly one server call and changes nothing; local mode never calls the server and changes nothing; any other mode ends in `direct` exactly when a store connection error occurred, and in its own mode otherwise; local mode is never demoted; at most two server calls |
| `ShotgunApi.DirectFind` | shotgun/api/shotgunAPI.py:98-103 | the server reply is returned verbatim; state and store are unchanged; one server call and no store call |
| `ShotgunApi.Demote` | shotgun/api/shotgunAPI.py:134-137 | after a connection error the instance is in direct mode with the store as the failed attempt left it, and the reply is the server reply for the ttl-stripped call, obtained with one more server call |
| `ShotgunApi.CachedFind` | shotgun/api/shotgunAPI.py:105-137 | on a hit: the stored rows, no server call, nothing changes. The store calls on a hit are exactly `exists` then `get`. On a miss: exactly one server call, its reply returned, and a successful reply stored under the key with the chosen expiry. A healthy miss makes exactly `exists`, the server call, `set`, `expire`, in that order. On a connection error: demoted to direct, reply is the direct answer for the ttl-stripped call. A server error propagates with state unchanged. A connection error at `exists`, or at `get` on a present key, leaves the store untouched and makes exactly one server call (the retry). One at `set` after a successful miss leaves the store untouched and makes two server calls. One at `expire` leaves the rows stored with no expiry and makes two server calls. On every connection error the trace is exactly the store calls up to and including the one that raised, in order, then the direct retry for the ttl-stripped call. Only the call's own key is ever touched |
| `ShotgunApi.Fetch` | shotgun/api/shotgunAPI.py:125-137 | on a miss the reply is always the server's reply for the stripped call. A server error leaves everything unchanged; the only calls are `exists` and the server call. Otherwise the rows are stored under the key with the chosen expiry, after exactly `exists`, the server call, `set` and `expire`. A connection error at `set` leaves the store as it was; one at `expire` leaves the rows stored with no expiry. Either error demotes the instance and costs a second server call, and the trace stops at the failing store call before that retry |
| `ShotgunApi.CacheOnlyFind` | shotgun/api/shotgunAPI.py:139-153 | a hit returns the stored rows; a miss or a connection error at `exists` or `get` returns the empty list; the store is asked `exists` on the call's own key (ttl included), and `get` on that key only when `exists` succeeded on a present key; the server is never called and state and store never change |
| `Sessions.Run` | shotgun/api/shotgunAPI.py:134-137 | over any series of calls the mode either stays as it was or becomes `direct`, and never changes for a local instance; the configuration is untouched |
| `Sessions.Dispatch` | shotgun/api/shotgunAPI.py:84-91 | `direct` goes to the direct find, `local` to the cache-only find, and every other mode value to the cached find |
| `Sessions.DirectIsPermanent` | shotgun/api/shotgunAPI.py:84-103 | in direct mode every later call returns the server reply for its own query, makes one server call each, never touches the store and never changes the state |
| `Sessions.LocalStaysLocal` | shotgun/api/shotgunAPI.py:139-153 | a local instance over any series of calls never calls the server, never changes its state or the store, and always returns rows |
| `Sessions.FailureDemotesForGood` | shotgun/api/shotgunAPI.py:134-137 | after a connection error in cached mode, the failing call returns the direct answer for its ttl-stripped query, every later call returns the direct answer and makes no store call, and the store never changes again |
| `Sessions.MissThenHit` | shotgun/api/shotgunAPI.py:118-130 | a miss followed by the same query (its `ttl` may differ) returns the same rows twice with one server call in total, and leaves the key holding those rows with the first call's expiry |
| `Sessions.MissStoresExpiry` | shotgun/api/shotgunAPI.py:112-129 | after a healthy cached miss with a server answer, the new entry expires after the call's `ttl` option when it has one and after the instance default otherwise |
| `Sessions.CachedEntryServesLocal` | shotgun/api/shotgunAPI.py:142-148 | an entry a cached instance stored for a call without `ttl` is what a local instance over the same store returns for that call |
| `Sessions.LocalKeyKeepsTtl` | shotgun/api/shotgunAPI.py:143-145 | cache-only mode's key (`ShotgunApi.LocalKey`) hashes a different list for a call with `ttl` than cached mode's key (`ShotgunApi.CachedKey`) does for the same call |
| `Sessions.CachedKeyIgnoresTtl` | shotgun/api/shotgunAPI.py:112-121 | calls that differ only in `ttl` get the same cached-mode key (`ShotgunApi.CachedKey`, the hash of the ttl-stripped call) |
| `Sessions.LateFailure` | shotgun/api/shotgunAPI.py:125-137 | a connection error at `set` or `expire` after a successful miss returns the server rows, demotes the instance, and makes two server calls. A failure at `set` leaves the store unchanged. A failure at `expire` leaves the rows stored with no expiry |
| `Sessions.RemoteErrorPropagates` | shotgun/api/shotgunAPI.py:118-137 | a server error on a cached miss reaches the caller unchanged after one server call, with mode and store as they were, whatever write-side store operation would have failed |

## Left out

- Collaborator construction (shotgunAPI.py:46-68): which parent initialiser runs for which mode is connection set-up for libraries that are not part of this model. The model treats both collaborators as reachable in every mode. In the source, an instance built with an unrecognised connection string has neither client initialised.
- The `print` diagnostics: they are output with no effect on behaviour.
- `pickle` and Python's `hash`: serialisation is the identity and the hash is an uninterpreted deterministic function. The options are a mapping, so equal mappings always hash alike. A serialiser that depends on dictionary insertion order could pickle two equal mappings differently, and that is not modelled.
- Wall-clock expiry and Redis eviction: the store enforces expiry, not this code, so the model only records the ttl given to `expire`. An evicted key is simply absent, and the next cached call for it is a miss.
- Redis-side validation of the ttl value: `expire` records whatever value the call carried.
- Sessions.MissThenHit: does not model a `ttl` of zero or less. Redis deletes the key at once for such a value, so the second call would miss and ask the server again. The model only records the ttl and leaves expiry to the store, as above.
- A key that expires between `exists` and `get`: time does not pass within a call.
- Store errors other than connection errors, for example a corrupt entry that fails to deserialise: the code does not catch them, and the store here holds only well-formed entries.
- The server is modelled as a deterministic function, so the retry after a late failure gets the same reply as the first attempt. A live server could answer differently between the two calls.
- Shotgun query semantics (filters, fields) and the method resolution of the multiple inheritance: `super().find` is the server's `find`.
- Concurrent callers racing on the mode flag: the code has no synchronisation, and the model is sequential.

=== FILE: collaborators.dfy ===
/** The two collaborators of the cache facade, seen from the outside.

    The Redis store is a map from key to entry; the facade only ever asks
    whether a key exists, reads it, writes it and sets its expiry. Any of
    those four operations may raise a connection error: a `Fault` names the
    one that does during a call. The remote Shotgun server is a function from
    query to reply. Every call the facade makes to either collaborator is
    recorded in a trace, so that contracts can say which collaborator was
    consulted and how often.
 */
module Collaborators {
  import opened Values

  /** The expiry of a stored entry. A Redis `set` drops any earlier expiry,
      so an entry that was written but never given one has `NoExpiry`. */
  datatype Expiry = NoExpiry | ExpiresIn(ttl: Value)

  /** A stored, serialised result together with its expiry. */
  datatype Entry = Entry(rows: Rows, expiry: Expiry)

  /** The Redis database: fingerprint to entry. */
  type Store = map<int, Entry>

  /** The store operations the facade uses. */
  datatype StoreOp = Exists | Get | Set | Expire

  /** Which store operation, if any, raises a connection error during one
      call to `find`. */
  datatype Fault = Healthy | FailsAt(op: StoreOp)

  /** What the remote server answers: records, or an error that is not a
      store connection error. */
  datatype Reply = Found(rows: Rows) | Error(message: string)

  /** One call made to a collaborator, including a store call that raised. */
  datatype Call = RemoteFind(query: Query) | StoreCall(op: StoreOp, key: int)

  /** The collaborators the facade is wired to: the remote server's `find`
      and the hash used to turn a canonical query list into a key. */
  datatype Env = Env(remote: Query -> Reply, hash: seq<Value> -> int)

  /** True if the store operation `op` raises under `fault`. */
  predicate Raises(fault: Fault, op: StoreOp)
  {
    fault == FailsAt(op)
  }

  /** The number of calls to the remote server in a trace. */
  function RemoteCount(calls: seq<Call>): (n: nat)
    ensures n <= |calls|
    ensures n == 0 <==> NoRemoteAccess(calls)
  {
    if calls == [] then 0
    else (if calls[0].RemoteFind? then 1 else 0) + RemoteCount(calls[1..])
  }

  /** No call in the trace goes to the store. */
  predicate NoStoreAccess(calls: seq<Call>)
  {
    forall i :: 0 <= i < |calls| ==> calls[i].RemoteFind?
  }

  /** No call in the trace goes to the remote server. */
  predicate NoRemoteAccess(calls: seq<Call>)
  {
    forall i :: 0 <= i < |calls| ==> calls[i].StoreCall?
  }

  /** Counting remote calls distributes over concatenated traces. */
  lemma {:induction false} RemoteCountAppend(a: seq<Call>, b: seq<Call>)
    ensures RemoteCount(a + b) == RemoteCount(a) + RemoteCount(b)
    decreases |a|
  {
    if a == [] {
      assert a + b == b;
    } else {
      assert (a + b)[1..] == a[1..] + b;
      RemoteCountAppend(a[1..], b);
    }
  }

  /** Traces that stay away from the store can be concatenated. */
  lemma NoStoreAccessAppend(a: seq<Call>, b: seq<Call>)
    requires NoStoreAccess(a) && NoStoreAccess(b)
    ensures NoStoreAccess(a + b)
  {
  }
}

=== FILE: sessions.dfy ===
/** Properties of the facade across one or several `find` calls on the same
    instance: dispatch, the one-way demotion to direct mode, the read-through
    round trip (a hit returns what a miss stored) and the store shared
    between cached and cache-only instances.
 */
module Sessions {
  import opened Values
  import opened Collaborators
  import opened ShotgunApi

  /** One `find` call and the store fault it meets. */
  datatype Request = Request(query: Query, fault: Fault)

  /** The replies to a series of calls, the final state and the whole trace. */
  datatype Session = Session(replies: seq<Reply>, after: Shotgun, calls: seq<Call>)

  /** A series of `find` calls on one instance, each on the state the
      previous one left. */
  function Run(s: Shotgun, reqs: seq<Request>, env: Env): (r: Session)
    decreases |reqs|
    ensures |r.replies| == |reqs|
    ensures SameConfig(s, r.after)
    ensures r.after.mode == s.mode || (r.after.mode == Direct && !s.mode.Local?)
  {
    if reqs == [] then Session([], s, [])
    else
      var first := Find(s, reqs[0].query, env, reqs[0].fault);
      var rest := Run(first.after, reqs[1..], env);
      Session([first.reply] + rest.replies, rest.after, first.calls + rest.calls)
  }

  /** `find` hands direct mode to the direct find, local mode to the
      cache-only find, and every other mode value to the cached find. */
  lemma Dispatch(s: Shotgun, q: Query, env: Env, fault: Fault)
    ensures s.mode == Direct ==> Find(s, q, env, fault) == DirectFind(s, q, env)
    ensures s.mode == Local ==> Find(s, q, env, fault) == CacheOnlyFind(s, q, env, fault)
    ensures s.mode != Direct && s.mode != Local ==> Find(s, q, env, fault) == CachedFind(s, q, env, fault)
  {
  }

  /** Once direct, always direct: every later call goes to the server with
      its own query, returns the server's reply and never touches the store. */
  lemma {:induction false} DirectIsPermanent(s: Shotgun, reqs: seq<Request>, env: Env)
    requires s.mode == Direct
    ensures Run(s, reqs, env).after == s
    ensures NoStoreAccess(Run(s, reqs, env).calls)
    ensures RemoteCount(Run(s, reqs, env).calls) == |reqs|
    ensures forall i :: 0 <= i < |reqs| ==> Run(s, reqs, env).replies[i] == env.remote(reqs[i].query)
    decreases |reqs|
  {
    if reqs != [] {
      var first := Find(s, reqs[0].query, env, reqs[0].fault);
      var rest := Run(first.after, reqs[1..], env);
      DirectIsPermanent(first.after, reqs[1..], env);
      NoStoreAccessAppend(first.calls, rest.calls);
      RemoteCountAppend(first.calls, rest.calls);
      var r := Run(s, reqs, env);
      forall i | 0 <= i < |reqs|
        ensures r.replies[i] == env.remote(reqs[i].query)
      {
        if i > 0 {
          assert r.replies[i] == rest.replies[i - 1];
          assert reqs[1..][i - 1] == reqs[i];
        }
      }
    }
  }

  /** A cache-only instance never calls the server, never changes the store
      or its mode, and always returns some rows (possibly none). */
  lemma {:induction false} LocalStaysLocal(s: Shotgun, reqs: seq<Request>, env: Env)
    requires s.mode == Local
    ensures Run(s, reqs, env).after == s
    ensures NoRemoteAccess(Run(s, reqs, env).calls)
    ensures forall i :: 0 <= i < |reqs| ==> Run(s, reqs, env).replies[i].Found?
    decreases |reqs|
  {
    if reqs != [] {
      var first := Find(s, reqs[0].query, env, reqs[0].fault);
      var rest := Run(first.after, reqs[1..], env);
      LocalStaysLocal(first.after, reqs[1..], env);
      RemoteCountAppend(first.calls, rest.calls);
      var r := Run(s, reqs, env);
      forall i | 0 <= i < |reqs|
        ensures r.replies[i].Found?
      {
        if i > 0 {
          assert r.replies[i] == rest.replies[i - 1];
        }
      }
    }
  }

  /** A connection error in cached mode demotes the instance for good: the
      failing call returns the direct answer for its ttl-stripped query, and
      every later call is a direct call that leaves the store alone. */
  lemma FailureDemotesForGood(s: Shotgun, reqs: seq<Request>, env: Env)
    requires WellNamed(s.mode) && s.mode != Direct && s.mode != Local
    requires |reqs| > 0 && StoreFails(s, env, reqs[0].query, reqs[0].fault)
    ensures Run(s, reqs, env).after.mode == Direct
    ensures Run(s, reqs, env).replies[0] == env.remote(StripTtl(reqs[0].query))
    ensures Run(s, reqs, env).after.store == Find(s, reqs[0].query, env, reqs[0].fault).after.store
    ensures forall i :: 1 <= i < |reqs| ==> Run(s, reqs, env).replies[i] == env.remote(reqs[i].query)
    ensures NoStoreAccess(Run(Find(s, reqs[0].query, env, reqs[0].fault).after, reqs[1..], env).calls)
  {
    var first := Find(s, reqs[0].query, env, reqs[0].fault);
    assert first == CachedFind(s, reqs[0].query, env, reqs[0].fault);
    DirectIsPermanent(first.after, reqs[1..], env);
    var r := Run(s, reqs, env);
    var rest := Run(first.after, reqs[1..], env);
    forall i | 1 <= i < |reqs|
      ensures r.replies[i] == env.remote(reqs[i].query)
    {
      assert r.replies[i] == rest.replies[i - 1];
      assert reqs[1..][i - 1] == reqs[i];
    }
  }

  /** The read-through round trip. In cached mode, a first call on a missing
      key asks the server once and stores its rows with the call's expiry; a
      second call for the same query (its `ttl` may differ) returns the same
      rows from the store without asking the server again. */
  lemma MissThenHit(s: Shotgun, q1: Query, q2: Query, env: Env, rows: Rows)
    requires WellNamed(s.mode) && s.mode != Direct && s.mode != Local
    requires CachedKey(env, q1) !in s.store
    requires env.remote(StripTtl(q1)) == Found(rows)
    requires StripTtl(q2) == StripTtl(q1)
    ensures Run(s, [Request(q1, Healthy), Request(q2, Healthy)], env).replies == [Found(rows), Found(rows)]
    ensures RemoteCount(Run(s, [Request(q1, Healthy), Request(q2, Healthy)], env).calls) == 1
    ensures Run(s, [Request(q1, Healthy), Request(q2, Healthy)], env).after
            == s.(store := s.store[CachedKey(env, q1) := Entry(rows, ExpiresIn(ExpiryFor(q1, s.ttl)))])
  {
    var reqs := [Request(q1, Healthy), Request(q2, Healthy)];
    var k := CachedKey(env, q1);
    var first := Find(s, q1, env, Healthy);
    assert first == CachedFind(s, q1, env, Healthy);
    assert !StoreFails(s, env, q1, Healthy);
    var second := Find(first.after, q2, env, Healthy);
    assert second == CachedFind(first.after, q2, env, Healthy);
    assert CachedKey(env, q2) == k;
    assert !StoreFails(first.after, env, q2, Healthy);
    assert reqs[1..] == [Request(q2, Healthy)];
    assert reqs[1..][1..] == [];
    var last := Run(second.after, reqs[1..][1..], env);
    assert last == Session([], second.after, []);
    var tail := Run(first.after, reqs[1..], env);
    assert tail == Session([second.reply], second.after, second.calls + []);
    RemoteCountAppend(second.calls, []);
    RemoteCountAppend(first.calls, tail.calls);
  }

  /** The expiry a cached miss gives the new entry is the call's `ttl` option
      when it has one and the instance default otherwise. */
  lemma MissStoresExpiry(s: Shotgun, q: Query, env: Env)
    requires WellNamed(s.mode) && s.mode != Direct && s.mode != Local
    requires CachedKey(env, q) !in s.store
    requires env.remote(StripTtl(q)).Found?
    ensures CachedKey(env, q) in Find(s, q, env, Healthy).after.store
    ensures TtlOption in q.options ==>
              Find(s, q, env, Healthy).after.store[CachedKey(env, q)].expiry == ExpiresIn(q.options[TtlOption])
    ensures TtlOption !in q.options ==>
              Find(s, q, env, Healthy).after.store[CachedKey(env, q)].expiry == ExpiresIn(Int(s.ttl))
  {
  }

  /** Cached and cache-only instances build their keys the same way, so an
      entry a cached instance stored for a call without `ttl` is what a
      cache-only instance over the same store returns for that call. */
  lemma CachedEntryServesLocal(s: Shotgun, q: Query, env: Env, rows: Rows, url: string, apiKey: string, connection: string, fault: Fault)
    requires WellNamed(s.mode) && s.mode != Direct && s.mode != Local
    requires TtlOption !in q.options
    requires CachedKey(env, q) !in s.store
    requires env.remote(q) == Found(rows)
    requires !Raises(fault, Exists) && !Raises(fault, Get)
    ensures Find(Init(url, "", apiKey, connection, Find(s, q, env, Healthy).after.store), q, env, fault).reply
            == Found(rows)
  {
    StripTtlIdempotent(q);
    var first := Find(s, q, env, Healthy);
    assert first == CachedFind(s, q, env, Healthy);
    assert !StoreFails(s, env, q, Healthy);
    var local := Init(url, "", apiKey, connection, first.after.store);
    assert LocalKey(env, q) == CachedKey(env, q);
  }

  /** Cache-only mode keeps `ttl` in the hashed list: a call carrying `ttl`
      has a different canonical list from the ttl-stripped call cached mode
      hashes, so it can find the cached entry only through a hash collision. */
  lemma LocalKeyKeepsTtl(q: Query)
    requires TtlOption in q.options
    ensures Canonical(q) != Canonical(StripTtl(q))
  {
    CanonicalInjective(q, StripTtl(q));
  }

  /** Cached mode ignores `ttl` when building the key: calls that differ only
      in their `ttl` option share one cache entry. */
  lemma CachedKeyIgnoresTtl(env: Env, q1: Query, q2: Query)
    requires q1.args == q2.args
    requires forall k :: k != TtlOption ==> (k in q1.options <==> k in q2.options)
    requires forall k :: k != TtlOption && k in q1.options ==> q1.options[k] == q2.options[k]
    ensures CachedKey(env, q1) == CachedKey(env, q2)
  {
    assert StripTtl(q1).options == StripTtl(q2).options;
  }

  /** A connection error after the server answered a miss: the server is
      asked twice (once for the miss, once for the direct retry). When it is
      the write that fails the store is unchanged; when it is the expiry,
      the key is left holding the rows with no expiry at all. */
  lemma LateFailure(s: Shotgun, q: Query, env: Env, rows: Rows, op: StoreOp)
    requires WellNamed(s.mode) && s.mode != Direct && s.mode != Local
    requires CachedKey(env, q) !in s.store
    requires env.remote(StripTtl(q)) == Found(rows)
    requires op == Set || op == Expire
    ensures Find(s, q, env, FailsAt(op)).reply == Found(rows)
    ensures Find(s, q, env, FailsAt(op)).after.mode == Direct
    ensures RemoteCount(Find(s, q, env, FailsAt(op)).calls) == 2
    ensures op == Set ==> Find(s, q, env, FailsAt(op)).after.store == s.store
    ensures op == Expire ==>
              Find(s, q, env, FailsAt(op)).after.store == s.store[CachedKey(env, q) := Entry(rows, NoExpiry)]
  {
  }

  /** A server error in cached mode is not caught: it reaches the caller
      unchanged and leaves the mode and the store as they were, whichever
      write-side store operation would have failed. */
  lemma RemoteErrorPropagates(s: Shotgun, q: Query, env: Env, fault: Fault)
    requires WellNamed(s.mode) && s.mode != Direct && s.mode != Local
    requires CachedKey(env, q) !in s.store
    requires env.remote(StripTtl(q)).Error?
    requires !Raises(fault, Exists)
    ensures Find(s, q, env, fault).reply == env.remote(StripTtl(q))
    ensures Find(s, q, env, fault).after == s
    ensures RemoteCount(Find(s, q, env, fault).calls) == 1
  {
  }
}

=== FILE: shotgun_api.dfy ===
/** The read-through cache facade in front of the Shotgun server.

    An instance carries a connection mode (`direct`, `cached` or `local`, or
    whatever other string it was constructed with), a default time-to-live and,
    beside it, the contents of the Redis store it talks to. `Find` is one call
    of the facade's `find`: a pure step from the state before the call to the
    reply, the state after it and the trace of collaborator calls it made.
 */
module ShotgunApi {
  import opened Values
  import opened Collaborators

  /** The connection mode. The source keeps it as a free-form string; any
      string other than the three known names is kept in `Other`. */
  datatype Mode = Direct | Cached | Local | Other(name: string)

  /** The default expiry, in seconds, of an entry written by cached mode. */
  const DefaultTtl: int := 600

  /** The option that overrides the expiry for one cached-mode call. */
  const TtlOption: string := "ttl"

  /** The mode string the source stores for `m`. */
  function NameOf(m: Mode): string
  {
    match m
    case Direct => "direct"
    case Cached => "cached"
    case Local => "local"
    case Other(name) => name
  }

  /** `Other` never holds one of the three known names, so comparing modes
      is the same as comparing the strings the source compares. */
  predicate WellNamed(m: Mode)
  {
    m.Other? ==> m.name != "direct" && m.name != "cached" && m.name != "local"
  }

  /** The mode for a `connection` string. */
  function ModeOf(connection: string): (m: Mode)
    ensures NameOf(m) == connection
    ensures WellNamed(m)
  {
    if connection == "direct" then Direct
    else if connection == "cached" then Cached
    else if connection == "local" then Local
    else Other(connection)
  }

  /** Reading a well-named mode back from its name gives the mode itself. */
  lemma ModeNameRoundTrip(m: Mode)
    requires WellNamed(m)
    ensures ModeOf(NameOf(m)) == m
  {
  }

  /** The facade's instance state together with the store it talks to. */
  datatype Shotgun = Shotgun(
    url: string,
    script: string,
    apiKey: string,
    ttl: int,
    mode: Mode,
    store: Store)

  /** The result of one `find` call. */
  datatype Step = Step(reply: Reply, after: Shotgun, calls: seq<Call>)

  /** Everything but the mode and the store stays as constructed. */
  predicate SameConfig(s: Shotgun, t: Shotgun)
  {
    t.url == s.url && t.script == s.script && t.apiKey == s.apiKey && t.ttl == s.ttl
  }

  /** Construction. `connection` defaults to "cached" in the source. An empty
      script name forces local mode; otherwise the mode is the requested one.
      The store is whatever the Redis database already holds. */
  function Init(url: string, script: string, apiKey: string, connection: string, store: Store): (s: Shotgun)
    ensures s.ttl == DefaultTtl
    ensures script == "" ==> s.mode == Local
    ensures script != "" ==> NameOf(s.mode) == connection
    ensures WellNamed(s.mode)
    ensures s.store == store
    ensures s.url == url && s.script == script && s.apiKey == apiKey
  {
    Shotgun(url, script, apiKey, DefaultTtl, if script != "" then ModeOf(connection) else Local, store)
  }

  /** The options with any `ttl` option removed. */
  function StripTtl(q: Query): (r: Query)
    ensures r.args == q.args
    ensures TtlOption !in r.options
    ensures forall k :: k in q.options && k != TtlOption ==> k in r.options && r.options[k] == q.options[k]
    ensures forall k :: k in r.options ==> k in q.options
  {
    Query(q.args, q.options - {TtlOption})
  }

  /** The expiry cached mode gives a new entry: the `ttl` option if present,
      else the instance default. */
  function ExpiryFor(q: Query, default: int): (t: Value)
    ensures TtlOption in q.options ==> t == q.options[TtlOption]
    ensures TtlOption !in q.options ==> t == Int(default)
    // the expiry and the stripped options together are the caller's options
    ensures TtlOption in q.options ==> StripTtl(q).options[TtlOption := t] == q.options
  {
    if TtlOption in q.options then q.options[TtlOption] else Int(default)
  }

  /** Stripping is idempotent, and a call without `ttl` is left alone. */
  lemma StripTtlIdempotent(q: Query)
    ensures StripTtl(StripTtl(q)) == StripTtl(q)
    ensures TtlOption !in q.options ==> StripTtl(q) == q
  {
  }

  /** The key cached mode reads and writes for a call. */
  function CachedKey(env: Env, q: Query): int
  {
    Fingerprint(env.hash, StripTtl(q))
  }

  /** The key cache-only mode reads for a call: `ttl` is not stripped. */
  function LocalKey(env: Env, q: Query): int
  {
    Fingerprint(env.hash, q)
  }

  /** True if a connection error is raised during a cached-mode call: at the
      existence check; at the read of a key that exists; or, when the key is
      missing and the server answered, at the write or at the expiry. */
  predicate StoreFails(s: Shotgun, env: Env, q: Query, fault: Fault)
  {
    var k := CachedKey(env, q);
    || Raises(fault, Exists)
    || (k in s.store && Raises(fault, Get))
    || (k !in s.store && env.remote(StripTtl(q)).Found? && (Raises(fault, Set) || Raises(fault, Expire)))
  }

  /** `find`: dispatch on the mode. Direct goes to the server, local to the
      store alone, and every other mode, not only "cached", to the store with
      fallback to the server. */
  function Find(s: Shotgun, q: Query, env: Env, fault: Fault): (r: Step)
    decreases if s.mode.Direct? then 0 else 4
    ensures SameConfig(s, r.after)
    ensures WellNamed(s.mode) ==> WellNamed(r.after.mode)
    ensures r.after.mode == s.mode || (r.after.mode == Direct && !s.mode.Local?)
    ensures s.mode.Direct? ==> r.reply == env.remote(q) && r.after == s && r.calls == [RemoteFind(q)]
    ensures s.mode.Local? ==> r.after == s && RemoteCount(r.calls) == 0 && r.reply.Found?
    ensures !s.mode.Direct? && !s.mode.Local? ==>
              (r.after.mode == Direct <==> StoreFails(s, env, q, fault))
    ensures RemoteCount(r.calls) <= 2
  {
    match s.mode
    case Direct => DirectFind(s, q, env)
    case Local => CacheOnlyFind(s, q, env, fault)
    case _ => CachedFind(s, q, env, fault)
  }

  /** Direct mode: the server's reply, verbatim, and nothing else. */
  function DirectFind(s: Shotgun, q: Query, env: Env): (r: Step)
    ensures r.reply == env.remote(q)
    ensures r.after == s
    ensures RemoteCount(r.calls) == 1 && NoStoreAccess(r.calls)
  {
    Step(env.remote(q), s, [RemoteFind(q)])
  }

  /** The retry after a connection error: demote to direct mode for good and
      run `find` again on the ttl-stripped call. */
  function Demote(s: Shotgun, stripped: Query, env: Env, fault: Fault, before: seq<Call>): (r: Step)
    decreases 1
    ensures r.after == s.(mode := Direct)
    ensures r.reply == env.remote(stripped)
    ensures RemoteCount(r.calls) == RemoteCount(before) + 1
    ensures r.calls == before + [RemoteFind(stripped)]
  {
    var retry := Find(s.(mode := Direct), stripped, env, fault);
    RemoteCountAppend(before, retry.calls);
    Step(retry.reply, retry.after, before + retry.calls)
  }

  /** Cached mode: answer from the store when the key is present, otherwise
      fetch from the server. A connection error demotes the instance and
      retries in direct mode. */
  function CachedFind(s: Shotgun, q: Query, env: Env, fault: Fault): (r: Step)
    decreases 3
    ensures SameConfig(s, r.after)
    ensures r.after.mode == (if StoreFails(s, env, q, fault) then Direct else s.mode)
    // a connection error: the answer is the direct-mode answer for the stripped call
    ensures StoreFails(s, env, q, fault) ==> r.reply == env.remote(StripTtl(q))
    // a hit: the stored rows, no server call, nothing changes
    ensures !StoreFails(s, env, q, fault) && CachedKey(env, q) in s.store ==>
              && r.reply == Found(s.store[CachedKey(env, q)].rows)
              && r.after == s
              && r.calls == [StoreCall(Exists, CachedKey(env, q)), StoreCall(Get, CachedKey(env, q))]
    // a miss: exactly one server call, whose reply is returned
    ensures !StoreFails(s, env, q, fault) && CachedKey(env, q) !in s.store ==>
              && r.reply == env.remote(StripTtl(q))
              && RemoteCount(r.calls) == 1
    // a successful miss stores the answer under the key with the chosen expiry
    ensures !StoreFails(s, env, q, fault) && CachedKey(env, q) !in s.store && r.reply.Found? ==>
              && r.after.store == s.store[CachedKey(env, q) := Entry(r.reply.rows, ExpiresIn(ExpiryFor(q, s.ttl)))]
              && r.calls == [StoreCall(Exists, CachedKey(env, q)), RemoteFind(StripTtl(q)),
                             StoreCall(Set, CachedKey(env, q)), StoreCall(Expire, CachedKey(env, q))]
    // a server error propagates and leaves everything as it was
    ensures !StoreFails(s, env, q, fault) && r.reply.Error? ==> r.after == s
    // a connection error at `exists`, or at `get` on a present key: nothing is
    // written, and the direct retry is the only server call
    ensures Raises(fault, Exists) || (CachedKey(env, q) in s.store && Raises(fault, Get)) ==>
              r.after == s.(mode := Direct) && RemoteCount(r.calls) == 1
    // the failing store call ends the attempt; the direct retry follows it
    ensures Raises(fault, Exists) ==> r.calls == [StoreCall(Exists, CachedKey(env, q)), RemoteFind(StripTtl(q))]
    ensures CachedKey(env, q) in s.store && Raises(fault, Get) ==>
              r.calls == [StoreCall(Exists, CachedKey(env, q)), StoreCall(Get, CachedKey(env, q)), RemoteFind(StripTtl(q))]
    // a connection error at `set` after a successful miss: the store is as it
    // was, and the server was asked twice
    ensures CachedKey(env, q) !in s.store && env.remote(StripTtl(q)).Found? && Raises(fault, Set) ==>
              && r.after == s.(mode := Direct)
              && RemoteCount(r.calls) == 2
              && r.calls == [StoreCall(Exists, CachedKey(env, q)), RemoteFind(StripTtl(q)),
                             StoreCall(Set, CachedKey(env, q)), RemoteFind(StripTtl(q))]
    // a connection error at `expire` after a successful miss: the rows stay
    // stored with no expiry, and the server was asked twice
    ensures CachedKey(env, q) !in s.store && env.remote(StripTtl(q)).Found? && Raises(fault, Expire) ==>
              && r.after == s.(mode := Direct, store := s.store[CachedKey(env, q) := Entry(env.remote(StripTtl(q)).rows, NoExpiry)])
              && RemoteCount(r.calls) == 2
              && r.calls == [StoreCall(Exists, CachedKey(env, q)), RemoteFind(StripTtl(q)), StoreCall(Set, CachedKey(env, q)),
                             StoreCall(Expire, CachedKey(env, q)), RemoteFind(StripTtl(q))]
    // no key but the call's own is touched
    ensures r.after.store - {CachedKey(env, q)} == s.store - {CachedKey(env, q)}
    ensures RemoteCount(r.calls) <= 2
  {
    var stripped := StripTtl(q);
    var k := Fingerprint(env.hash, stripped);
    if Raises(fault, Exists) then
      Demote(s, stripped, env, fault, [StoreCall(Exists, k)])
    else if k in s.store then
      if Raises(fault, Get) then
        Demote(s, stripped, env, fault, [StoreCall(Exists, k), StoreCall(Get, k)])
      else
        Step(Found(s.store[k].rows), s, [StoreCall(Exists, k), StoreCall(Get, k)])
    else
      Fetch(s, stripped, k, ExpiryFor(q, s.ttl), env, fault)
  }

  /** The miss path of cached mode, after `exists` said no: ask the server,
      `set` its rows under `k`, then `expire` the key after `ttl`. A server
      error propagates; a connection error at `set` or `expire` demotes. */
  function Fetch(s: Shotgun, stripped: Query, k: int, ttl: Value, env: Env, fault: Fault): (r: Step)
    decreases 2
    ensures SameConfig(s, r.after)
    // whatever happens, the reply is the server's reply for the call
    ensures r.reply == env.remote(stripped)
    ensures r.after.mode == (if r.reply.Found? && (Raises(fault, Set) || Raises(fault, Expire)) then Direct else s.mode)
    ensures RemoteCount(r.calls) == (if r.reply.Found? && (Raises(fault, Set) || Raises(fault, Expire)) then 2 else 1)
    ensures r.reply.Error? ==> r.after == s && r.calls == [StoreCall(Exists, k), RemoteFind(stripped)]
    ensures r.reply.Found? && !Raises(fault, Set) && !Raises(fault, Expire) ==>
              && r.after.store == s.store[k := Entry(r.reply.rows, ExpiresIn(ttl))]
              && r.calls == [StoreCall(Exists, k), RemoteFind(stripped), StoreCall(Set, k), StoreCall(Expire, k)]
    ensures r.reply.Found? && Raises(fault, Set) ==>
              && r.after.store == s.store
              && r.calls == [StoreCall(Exists, k), RemoteFind(stripped), StoreCall(Set, k), RemoteFind(stripped)]
    ensures r.reply.Found? && Raises(fault, Expire) ==>
              && r.after.store == s.store[k := Entry(r.reply.rows, NoExpiry)]
              && r.calls == [StoreCall(Exists, k), RemoteFind(stripped), StoreCall(Set, k), StoreCall(Expire, k), RemoteFind(stripped)]
  {
    var reply := env.remote(stripped);
    match reply
    case Error(_) =>
      Step(reply, s, [StoreCall(Exists, k), RemoteFind(stripped)])
    case Found(rows) =>
      var wrote := [StoreCall(Exists, k), RemoteFind(stripped), StoreCall(Set, k)];
      RemoteCountAppend([StoreCall(Exists, k)], [RemoteFind(stripped), StoreCall(Set, k)]);
      if Raises(fault, Set) then
        Demote(s, stripped, env, fault, wrote)
      else
        var written := s.(store := s.store[k := Entry(rows, NoExpiry)]);
        RemoteCountAppend(wrote, [StoreCall(Expire, k)]);
        if Raises(fault, Expire) then
          Demote(written, stripped, env, fault, wrote + [StoreCall(Expire, k)])
        else
          Step(reply, s.(store := s.store[k := Entry(rows, ExpiresIn(ttl))]), wrote + [StoreCall(Expire, k)])
  }

  /** Cache-only mode: the stored rows on a hit; the empty result on a miss
      or a connection error. The server is never asked and nothing changes. */
  function CacheOnlyFind(s: Shotgun, q: Query, env: Env, fault: Fault): (r: Step)
    ensures r.after == s
    ensures NoRemoteAccess(r.calls)
    // only `exists` and `get` are ever asked of the store
    ensures forall i :: 0 <= i < |r.calls| ==> r.calls[i].op == Exists || r.calls[i].op == Get
    ensures LocalKey(env, q) in s.store && !Raises(fault, Exists) && !Raises(fault, Get) ==>
              r.reply == Found(s.store[LocalKey(env, q)].rows)
    ensures LocalKey(env, q) !in s.store || Raises(fault, Exists) || Raises(fault, Get) ==>
              r.reply == Found([])
    // `get` is asked only after `exists` succeeded on a present key
    ensures Raises(fault, Exists) || LocalKey(env, q) !in s.store ==> r.calls == [StoreCall(Exists, LocalKey(env, q))]
    ensures !Raises(fault, Exists) && LocalKey(env, q) in s.store ==>
              r.calls == [StoreCall(Exists, LocalKey(env, q)), StoreCall(Get, LocalKey(env, q))]
  {
    var k := Fingerprint(env.hash, q);
    if Raises(fault, Exists) then
      Step(Found([]), s, [StoreCall(Exists, k)])
    else if k !in s.store then
      Step(Found([]), s, [StoreCall(Exists, k)])
    else if Raises(fault, Get) then
      Step(Found([]), s, [StoreCall(Exists, k), StoreCall(Get, k)])
    else
      Step(Found(s.store[k].rows), s, [StoreCall(Exists, k), StoreCall(Get, k)])
  }
}

=== FILE: values.dfy ===
/** Query values and the query fingerprint used as a cache key.

    A `find` call receives positional filter arguments and keyword options.
    Cached and cache-only lookups both turn the call into one list (a copy
    of the positional arguments with the options mapping appended), serialise
    that list and hash it. Serialisation is the identity here and the hash is
    an uninterpreted, deterministic function supplied by the caller: nothing
    below assumes it is injective.
 */
module Values {

  /** The values a query or a record can hold. */
  datatype Value =
    | Null
    | Bool(b: bool)
    | Int(i: int)
    | Str(s: string)
    | List(items: seq<Value>)
    | Dict(entries: map<string, Value>)

  /** One record returned by the remote server: field name to value. */
  type Record = map<string, Value>

  /** The result of a `find`: an ordered sequence of records. */
  type Rows = seq<Record>

  /** A call `find(*args, **kwargs)`. */
  datatype Query = Query(args: seq<Value>, options: map<string, Value>)

  /** The list that is serialised and hashed: the positional arguments
      followed by the options mapping as one last element. */
  function Canonical(q: Query): seq<Value>
  {
    q.args + [Dict(q.options)]
  }

  /** The cache key of a query under the hash function `hash`. */
  function Fingerprint(hash: seq<Value> -> int, q: Query): int
  {
    hash(Canonical(q))
  }

  /** Two calls give the same canonical list exactly when they have the same
      positional arguments and the same options, so a collision of keys can
      only come from the hash function itself. */
  lemma CanonicalInjective(q1: Query, q2: Query)
    ensures Canonical(q1) == Canonical(q2) <==> q1 == q2
  {
    if Canonical(q1) == Canonical(q2) {
      var l := Canonical(q1);
      assert |q1.args| == |q2.args| == |l| - 1;
      assert q1.args == l[..|l| - 1] == q2.args;
      assert Dict(q1.options) == l[|l| - 1] == Dict(q2.options);
    }
  }
}
